=== FILE: README.md ===
# Request lifecycle middleware of an Express service, in Dafny

This project models the decision logic of the HTTP middleware stack of a small
Express/TypeScript service and proves properties about it. The model covers:

- **In-flight request tracker** (`GracefulShutdown`). This is a process-wide
  counter, `activeRequests`. Each admitted request gets a one-shot `finalize`
  closure, registered on both its response's `finish` and `close` events. The
  model is a state machine over any interleaving of `Enter`, `Finish(r)` and
  `Close(r)` events. Its state is the counter, the number of admitted requests,
  and the set of finalized request tokens.
- **Drain loop** (`waitForActiveRequestsToDrain`). It runs against an abstract
  clock: a sequence of `(now, active)` samples, one per loop turn.
- **Shutdown gate** (`shutdownGate`). It either passes the request on or answers
  503 with `Connection: close` and `Retry-After: 5`.
- **Request-part validation** (`validatePart`, `validate(schemas)`,
  `initValidated`). A Zod schema is an opaque total function from a value to
  parsed data or a list of issues.
- **Error handling** (`AppError`, `errorHandler`). This maps a thrown error to a
  JSON error response, or delegates when the response head is already out.
- **Small policies**: the CORS origin decision, the log level for a status
  code, and reuse-or-generate of `x-request-id`.

JavaScript values are modelled by `Js.Value`. Truthiness, loose equality with
`undefined`, and property lookup are written out explicitly. Each middleware
returns exactly one `Http.Cont`: `Next`, `NextWith(err)` or `Halt`. So "`next`
is called exactly once" (or not at all) holds by construction.

Points about the code that the model keeps as written:

- The code has no shutdown orchestrator: no shutdown states, connection
  registry, signal handling, overall deadline or exit codes. It has only the
  tracker, the drain loop and the gate, and none of those is mounted in
  `src/app.ts`. Whether a rejected request ever enters the counter therefore
  depends on a mount order the code does not fix, and it is not modelled.
- The drain throws only when the elapsed time is strictly greater than
  `timeoutMs`, and it checks this only on loop turns that still see work in
  flight.
- The gate reads `Boolean(req.app.locals.isShuttingDown)`, so any truthy value
  shuts the gate, not only `true`.
- `errorHandler` picks the status and message for every `AppError`. It tests
  only `instanceof AppError` and never looks at `isOperational`
  (`ErrorHandler.HandleIgnoresIsOperational`).
- Validation details never reach the response. `validatePart` builds a list of
  issue details and passes it as a fourth argument to `new AppError(...)`. The
  constructor takes three arguments and declares no `details` field
  (`src/utils/errors/AppError.ts:4`). So `err.details` in
  `src/utils/errors/errorHandler.ts:24` is always `undefined`, and the response
  never has a `details` key. The model keeps `AppError` as written.
  `Validator.IssueDetails` models the list that is built, and
  `Validator.ValidationFailureResponse` proves that a validation failure reaches
  the client as a bare 400 without details.

## Model

| member | source | states |
|---|---|---|
| GracefulShutdown.Track | src/middleware/gracefulShutdown.ts:5-22 | Admitting a request raises the counter by one and hands out the next token. The finalized set is unchanged. Its effects are exactly three: the `finish` and `close` listeners for that token, then one call to `next()`, last |
| GracefulShutdown.Finalize | src/middleware/gracefulShutdown.ts:12-17 | The first call for an admitted token adds it to the finalized set and sets the counter to `max(0, counter - 1)`. It is a no-op for a token already finalized or never admitted. Whenever it changes the state, the counter it leaves is not negative |
| GracefulShutdown.StepPreservesValid | src/middleware/gracefulShutdown.ts:10-20 | Each event keeps the counter consistent. Entering adds exactly the new token to the requests in flight, and a completion removes exactly its own token. On a request in flight, a completion decrements by exactly one, so the `Math.max(0, …)` floor never takes effect |
| GracefulShutdown.EnterPreservesValid | src/middleware/gracefulShutdown.ts:10-11 | Admitting a request keeps the counter consistent and adds exactly the fresh token to the requests in flight |
| GracefulShutdown.FinalizePreservesValid | src/middleware/gracefulShutdown.ts:13-20 | A `finish` or `close` keeps the counter consistent and removes exactly its own token from the requests in flight; on a token still in flight the counter drops by exactly one |
| GracefulShutdown.GetActiveRequests | src/middleware/gracefulShutdown.ts:24-26 | A pure read. With a consistent counter it returns the number of requests in flight, which is never negative |
| GracefulShutdown.RunValid | src/middleware/gracefulShutdown.ts:10-20 | Every interleaving of enter/finish/close events keeps the counter equal to the number of requests in flight, and so non-negative |
| GracefulShutdown.SecondCompletionIsNoOp | src/middleware/gracefulShutdown.ts:12-20 | Whichever of `finish`/`close` fires second for a request, and any repeat, leaves the state unchanged |
| GracefulShutdown.HistoryMatchesEvents | src/middleware/gracefulShutdown.ts:10-20 | After any event history, the admitted count is the number of `Enter` events. The finalized set is exactly the requests that got a completion event after entering (an independent definition over the history) |
| GracefulShutdown.ActiveIsEnteredMinusCompleted | src/middleware/gracefulShutdown.ts:10-20 | For any interleaving, the counter equals the entered requests minus the distinct completed ones, and is never negative |
| GracefulShutdown.FinalizeTakesEffectAtMostOnce | src/middleware/gracefulShutdown.ts:12-20 | Along any run, a request's closure decrements once if the request ends finalized (and was not already finalized), and zero times otherwise. So it never decrements more than once |
| GracefulShutdown.TimeoutMs | src/middleware/gracefulShutdown.ts:32 | The timeout is 25000 ms when the options or the field are absent, and the given value otherwise |
| GracefulShutdown.PollMs | src/middleware/gracefulShutdown.ts:33 | The poll interval is 100 ms when the options or the field are absent, and the given value otherwise |
| GracefulShutdown.DrainFrom | src/middleware/gracefulShutdown.ts:36-43 | From any turn on, the loop stops at the first sample that reads zero (drained) or is past the timeout with work in flight (throws, carrying the count), and only there. Every turn before it saw work in flight within the timeout |
| GracefulShutdown.Drain | src/middleware/gracefulShutdown.ts:28-44 | If the first sample reads zero, it returns at once with no sleep. It throws only on a sample with work in flight and elapsed strictly greater than the timeout, and the error carries that sample's count in its message. Every earlier turn kept polling |
| GracefulShutdown.WaitForActiveRequestsToDrain | src/middleware/gracefulShutdown.ts:28-44 | The imperative loop computes the same outcome as the recursive definition: drained on a zero sample, and a throw only past the timeout |
| GracefulShutdown.TimeoutWithinOnePoll | src/middleware/gracefulShutdown.ts:36-43 | Suppose timers fire on time and work never drains. Then the loop throws, and at the throwing turn the elapsed time is above the timeout and at most one poll interval beyond it |
| GracefulShutdown.ShutdownGate | src/middleware/gracefulShutdown.ts:46-60 | With a falsy flag it calls `next()` and the response is untouched. With a truthy flag it sets `Connection: close` and `Retry-After: 5`, adds no other header, keeps the existing ones, and sends 503 with exactly the body `{ok:false, message:"Server is shutting down"}`. In that case `next` is never called |
| AppErrors.NewAppError | src/utils/errors/AppError.ts:1-10 | The message is kept unchanged. An omitted status code defaults to 500 and an omitted `isOperational` to true. Given values are stored as passed |
| ErrorHandler.DetailsOf | src/utils/errors/errorHandler.ts:18-24 | The `details` the handler reads is always undefined, because `AppError` has no such field |
| ErrorHandler.ErrorBody | src/utils/errors/errorHandler.ts:34-38 | The body always has `status: "error"` and the message. It has a `details` key iff details is neither undefined nor null, and then holds it. There are no other keys, and each key appears once |
| ErrorHandler.Handle | src/utils/errors/errorHandler.ts:6-39 | With headers already sent, it delegates `next(err)` and writes nothing. Otherwise it writes exactly one JSON response, whose body has only the keys `status` and `message`, and does not call `next`. An `AppError` gives its own status and message without logging. Any other error gives 500 "Something went wrong" and is logged with its name, message and stack |
| ErrorHandler.HandleReadsBackAppError | src/utils/errors/errorHandler.ts:18-34 | For any arguments to the `AppError` constructor, the handler answers with the status it stored (500 when omitted) and its message, without logging and without calling `next` |
| ErrorHandler.HandleNeverEmitsDetails | src/utils/errors/errorHandler.ts:18-38 | As written, no response from the handler carries a `details` key |
| ErrorHandler.HandleIgnoresIsOperational | src/utils/errors/errorHandler.ts:20-24 | Two `AppError`s that differ only in `isOperational` produce the same response |
| ValidateMiddleware.FromRaw | src/middleware/validate.ts:9-14 | The initial validated record holds the raw params, query, headers and body, and has no `file`/`files` keys |
| ValidateMiddleware.InitValidated | src/middleware/validate.ts:3-16 | `req.validated` is overwritten with the raw body, query, params and headers, with `file`/`files` absent. The new contents do not depend on the old ones. Nothing else on the request changes, and `next()` is called with no error |
| Validator.IssueDetails | src/validations/validator.ts:18-22 | There is one detail per issue, in the same order, with message and code copied and the path's segments joined with `.` |
| Validator.IssueDetailsPathsRoundTrip | src/validations/validator.ts:18-22 | Each detail of the built list splits at the dots back into its issue's path segments, when the path is non-empty and no key contains a dot |
| Validator.DetailPathRoundTrip | src/validations/validator.ts:19 | A detail path is the issue path joined with ".". Splitting it at "." gives back the segments (index segments as decimal digits) when no key contains a dot |
| Strings.SplitJoin | src/validations/validator.ts:19 | Joining dot-free pieces with a separator character and splitting again restores the pieces |
| Strings.NatToString | src/validations/validator.ts:19 | An array index renders as a non-empty string of decimal digits with no leading zero |
| Strings.DigitsValueNatToString | src/validations/validator.ts:19 | Reading an index's rendered digits back yields the index |
| Validator.ValidatePart | src/validations/validator.ts:8-30 | With no schema, the input is returned unchanged. A successful parse returns the parsed data. It fails iff the parse fails, and the failure is an operational 400 with message "Validation Failed for " + the part name |
| Validator.Store | src/validations/validator.ts:42-69 | params, query, headers and body are always written. file and files are written only when their schema is present. No other slot is touched |
| Validator.InitIfAbsent | src/validations/validator.ts:35-40 | An existing `req.validated` is kept. An absent one gets the same four raw parts, and no `file`/`files`, as `initValidated` gives it |
| Validator.Validate | src/validations/validator.ts:31-73 | Only `req.validated` changes and it is always present afterwards. The outcome is `next()` or `next(err)`, never a written response |
| Validator.RunPartsAllPass | src/validations/validator.ts:43-71 | When every part in the run passes, `next()` is called with no error. Each part's slot holds its validated data (or is left alone for file/files without a schema), and slots of other parts are untouched |
| Validator.RunPartsFirstFailure | src/validations/validator.ts:43-69 | When the first failure is at position k, `next(err)` carries that part's error. The earlier parts are written and every other slot is untouched |
| Validator.OrderLists | src/validations/validator.ts:43-71 | The pipeline visits each of the six request parts, and each exactly once |
| Validator.ValidateAllPass | src/validations/validator.ts:43-71 | When all six parts pass, `next()` is called with no error and every slot holds the expected validated data |
| Validator.ValidateStopsAtFirstFailure | src/validations/validator.ts:43-69 | In the order params, query, headers, body, file, files, the first failing part ends the request with its error. Earlier parts are written. That part and all later ones are not written |
| Validator.RunPartsIgnoresLaterSchemas | src/validations/validator.ts:43-69 | Schemas after the first failure are never consulted. Swapping them leaves the run unchanged |
| Validator.LaterSchemasIgnored | src/validations/validator.ts:43-69 | The middleware's result does not depend on the schemas of parts after the first failing one |
| Validator.DefensiveInitMatchesInitValidated | src/validations/validator.ts:35-40 | On a request without `validated`, `validate` gives the same field values and outcome as it would after `initValidated` |
| Validator.NoSchemasKeepsRawParts | src/validations/validator.ts:13-14 | With no schemas, `validate` after `initValidated` keeps every raw part and calls `next()` |
| Validator.ValidationFailureResponse | src/validations/validator.ts:23-28 | A failing part reaches the error handler as a 400 with message "Validation Failed for <part>". The response has no `details` key |
| Cors.OriginCallback | src/middleware/enableCors.ts:9-21 | The single callback call allows exactly the missing or empty origin and the two trusted origins, with `(null, true)`. Any other origin gets an error "Not allowed by CORS" and no allow flag |
| Cors.AllowlistIsTrusted | src/middleware/enableCors.ts:3-6 | The allowlist has exactly two entries, the two trusted origins |
| Cors.DeniedOriginIsUnexpectedError | src/middleware/enableCors.ts:20 | The denial error is not an `AppError`. Passed to the error handler, it yields 500 and is logged |
| RequestLogger.LevelFor | src/middleware/requestLogger.ts:14-15 | The level is `error` iff status ≥ 500, `warn` iff 400 ≤ status < 500, and `info` iff status < 400. The three cases are exhaustive and disjoint |
| RequestLogger.OnFinish | src/middleware/requestLogger.ts:11-29 | The line's level follows the status at finish time. The route falls back to `originalUrl` when no route path matched. `userId` is null without a user or an id. The request id, method, path, status, `ip` and user agent are copied |
| RequestLogger.Logged | src/middleware/requestLogger.ts:11 | Over a response's events, exactly one line is logged per `finish`, and none for `close` |
| RequestLogger.Dispatch | src/middleware/requestLogger.ts:11 | Each event runs every logging listener registered for it: the number of lines is the `finish` count times the `finish` listeners plus the `close` count times the `close` listeners, and every line is the one read at that moment |
| RequestLogger.FinishListenerLogsPerFinish | src/middleware/requestLogger.ts:11-29 | One listener registered on `finish` logs, over any event sequence, exactly the lines `Logged` describes: one per `finish`, none per `close` |
| RequestLogger.RequestLoggerMiddleware | src/middleware/requestLogger.ts:4-32 | The middleware calls `next()` unconditionally, and the listeners it registers log, over every later event sequence and final response, one line per `finish` and none per `close` |
| RequestId.RequestIdMiddleware | src/middleware/requestId.ts:4-18 | A non-empty incoming `x-request-id` is reused verbatim. A missing or empty one is replaced by a fresh id. The request header, the response header and `req.requestId` all hold that id. Nothing else changes, and `next()` is called |
| RequestId.RequestIdIsStable | src/middleware/requestId.ts:9-15 | A second pass over the result keeps the chosen id and changes nothing, whatever fresh id it would draw |

## Left out

- A shutdown orchestrator (states, connection registry, signal handling, overall deadline, exit codes): the code has none, so none is modelled.
- The drain loop's timers: `Date.now()` and `setTimeout(pollMs)` are replaced by the sample sequence. The poll interval only shapes the clock that `TimeoutWithinOnePoll` assumes.
- GracefulShutdown.Drain: when the samples run out before the loop stops, it returns `Waiting`. That is an artifact of the finite clock; the real loop keeps waiting.
- GracefulShutdown.TimeoutWithinOnePoll: this assumes timers fire on time. Node's timers may fire late, and the code gives no upper bound of its own.
- GracefulShutdown.GetActiveRequests: its contract describes the counter only in states reachable from the initial one (`Valid`). `RunValid` shows every run stays in such states.
- Mount order: the code does not fix whether `shutdownGate` runs before `inFlightRequestTracker`, so whether a rejected request is counted is not modelled.
- Node's case-insensitive header names: header names are stored as the code spells them.
- Node's `ERR_HTTP_HEADERS_SENT` throw from `setHeader` after the head is sent. The gate and the request-id middleware run before anything is sent.
- The `Content-Type` header that `res.json` adds.
- Logger setup (winston transports, log directory creation) is not modelled.
- The request logger's `durationMs` field: `Record` has no such field, since it comes from a high-resolution clock and float rounding. `ip` and `userAgent` are copied through.
- Zod parsing internals: a schema is an opaque total function. Symbol path keys are not modelled.
- JavaScript numbers are modelled as integers, so NaN, fractions and `-0` are not modelled.
- UUID generation: the fresh id is a parameter.
- ErrorHandler.Handle: writes any integer `statusCode` as the response status. Node rejects a status outside 100–999 with a `RangeError` when `res.status(...).json(...)` writes the head, and that throw is not modelled.
- Property order of `req.validated`: `validate` builds its fallback record as `{params, query, headers, body}`, while `initValidated` builds `{body, query, params, headers}`. The `Validated` record has no key order, so the difference, which `Object.keys` or `JSON.stringify` could observe, is not modelled; `Validator.InitIfAbsent` and `Validator.DefensiveInitMatchesInitValidated` state equality of field values only.
- The stack that `Error.captureStackTrace` records on an `AppError` is not modelled, because nothing reads it.
- The cors package beyond the `origin` callback: `credentials` and `exposedHeaders` are not modelled. `Cors.DeniedOriginIsUnexpectedError` assumes, as the package does, that the callback's error is handed to `next`.
- Metrics, database wiring, the health route, rate and speed limiters, `app.ts`, `server.ts`, config and `asyncHandler` are framework glue and I/O, so they are not modelled.

=== FILE: app_error.dfy ===
/** The application's error class (`AppError`) and the two kinds of thrown
    value the error handler distinguishes. */
module AppErrors {
  import opened Core

  /** An `AppError`: a message plus the two readonly fields the class declares.
      The class declares no `details` field. */
  datatype AppError = AppError(message: string, statusCode: int, isOperational: bool)

  const DefaultStatusCode: int := 500
  const DefaultIsOperational: bool := true

  /** `new AppError(message, statusCode?, isOperational?)`: an omitted
      argument takes its default, a given one is stored unchanged, and the
      message goes to the base `Error` untouched. */
  function NewAppError(message: string, statusCode: Option<int>, isOperational: Option<bool>): (e: AppError)
    ensures e.message == message
    ensures statusCode.None? ==> e.statusCode == 500
    ensures statusCode.Some? ==> e.statusCode == statusCode.value
    ensures isOperational.None? ==> e.isOperational
    ensures isOperational.Some? ==> e.isOperational == isOperational.value
  {
    AppError(message, statusCode.GetOr(DefaultStatusCode), isOperational.GetOr(DefaultIsOperational))
  }

  /** A value passed to `next(err)`: an `AppError`, or any other `Error`
      (with its `name`, `message` and optional `stack`). */
  datatype Thrown =
    | App(error: AppError)
    | Plain(name: string, message: string, stack: Option<string>)
}

=== FILE: core.dfy ===
/** Small shared vocabulary: an optional value, used for JavaScript's
    `undefined`-able arguments and fields. */
module Core {

  /** `None` stands for an absent (undefined) value. */
  datatype Option<+T> = None | Some(value: T) {

    /** The value, or `default` when absent (the `??` operator on a non-null type). */
    function GetOr(default: T): T {
      match this
      case Some(v) => v
      case None => default
    }
  }
}

=== FILE: enable_cors.dfy ===
/** The `origin` decision of the CORS options: which browser origins may
    call the service. */
module Cors {
  import opened Core
  import AppErrors
  import Http
  import ErrorHandler

  const Allowlist: seq<string> := ["https://example.com", "https://app.example.com"]

  const DeniedMessage: string := "Not allowed by CORS"

  /** The arguments `callback(err, allow?)` receives: `err` is the message of
      the `Error` passed (`None` for `null`), `allow` the optional flag. */
  datatype Callback = Callback(err: Option<string>, allow: Option<bool>)

  /** The two origins the service trusts, compared as whole strings. */
  predicate Trusted(origin: string) {
    origin == "https://example.com" || origin == "https://app.example.com"
  }

  /** `origin(origin, callback)`: the single callback invocation it makes. */
  function OriginCallback(origin: Option<string>): (c: Callback)
    // Allowed: no origin, an empty one (server-to-server, curl), or a trusted one.
    ensures c.err.None? <==> origin.None? || origin.value == "" || Trusted(origin.value)
    ensures c.err.None? ==> c.allow == Some(true)
    // Anything else: an error and no allow flag.
    ensures c.err.Some? ==> c.err.value == DeniedMessage && c.allow.None?
  {
    if origin.None? || origin.value == "" then Callback(None, Some(true))
    else if origin.value in Allowlist then Callback(None, Some(true))
    else Callback(Some(DeniedMessage), None)
  }

  /** The allowlist holds exactly the two trusted origins. */
  lemma AllowlistIsTrusted()
    ensures |Allowlist| == 2
    ensures forall o :: o in Allowlist <==> Trusted(o)
  {
  }

  /** A denied origin's error is a plain `Error`, not an `AppError`: handed to
      `next(err)`, the error handler answers 500 with the generic message
      and logs it. */
  lemma DeniedOriginIsUnexpectedError(origin: string, stack: Option<string>, res: Http.Response)
    requires OriginCallback(Some(origin)).err.Some?
    requires !res.headersSent
    ensures var err := AppErrors.Plain("Error", OriginCallback(Some(origin)).err.value, stack);
            var o := ErrorHandler.Handle(err, res);
            o.res.status == 500 && o.log.Some? && o.log.value.errorMessage == DeniedMessage
  {
  }
}

=== FILE: error_handler.dfy ===
/** The final error middleware: maps whatever reached `next(err)` to a JSON
    error response, or hands it on when the response head is already out. */
module ErrorHandler {
  import opened Core
  import Js
  import opened AppErrors
  import opened Http

  const GenericMessage: string := "Something went wrong"
  const UnexpectedErrorLog: string := "Unexpected error"

  /** The record logged at level `error` for an error that is not an `AppError`. */
  datatype Logged = Logged(message: string, name: string, errorMessage: string, stack: Option<string>)

  datatype Outcome = Outcome(res: Response, cont: Cont, log: Option<Logged>)

  /** `err.details` as the handler reads it. `AppError` declares no such field
      and its constructor keeps no fourth argument, so the read is undefined;
      for any other error the handler never reads it. */
  function DetailsOf(err: Thrown): (d: Js.Value)
    ensures Js.Nullish(d)
  {
    Js.Undefined
  }

  /** The response body `{ status: "error", message, ...(details != undefined ? { details } : {}) }`. */
  function ErrorBody(message: string, details: Js.Value): (b: Js.Value)
    ensures b.Obj?
    ensures Js.Get(b, "status") == Js.Str("error")
    ensures Js.Get(b, "message") == Js.Str(message)
    ensures Js.HasKey(b, "details") <==> !Js.Nullish(details)
    ensures Js.Get(b, "details") == (if Js.Nullish(details) then Js.Undefined else details)
    ensures forall i :: 0 <= i < |b.fields| ==> b.fields[i].0 in {"status", "message", "details"}
    // Each key once: two keys, plus `details` when it is present.
    ensures |b.fields| == if Js.Nullish(details) then 2 else 3
  {
    var fields := [("status", Js.Str("error")), ("message", Js.Str(message))]
                  + (if !Js.Nullish(details) then [("details", details)] else []);
    assert fields[0].0 == "status" && fields[1].0 == "message";
    assert !Js.Nullish(details) ==> fields[2].0 == "details";
    assert Js.Lookup(fields[1..], "message") == Js.Str(message);
    Js.Obj(fields)
  }

  /** `errorHandler(err, req, res, next)`. */
  function Handle(err: Thrown, res: Response): (o: Outcome)
    // Head already sent: delegate to the framework's default handler, write nothing.
    ensures res.headersSent ==> o == Outcome(res, NextWith(err), None)
    // Otherwise exactly one JSON response is written and `next` is not called.
    ensures !res.headersSent ==> o.cont == Halt && o.res.headersSent && o.res.body.Some?
    ensures !res.headersSent ==> o.res.headers == res.headers
    ensures !res.headersSent ==> Js.Get(o.res.body.value, "status") == Js.Str("error")
    // The body holds `status` and `message` only: nothing from the error leaks into it.
    ensures !res.headersSent ==>
              && o.res.body.value.Obj?
              && |o.res.body.value.fields| == 2
              && forall i :: 0 <= i < |o.res.body.value.fields| ==> o.res.body.value.fields[i].0 in {"status", "message"}
    // An AppError chooses the status and message, whatever its isOperational flag.
    ensures !res.headersSent && err.App? ==>
              o.res.status == err.error.statusCode
              && Js.Get(o.res.body.value, "message") == Js.Str(err.error.message)
              && o.log.None?
    // Anything else is a 500 with the generic message, and is logged.
    ensures !res.headersSent && err.Plain? ==>
              o.res.status == 500
              && Js.Get(o.res.body.value, "message") == Js.Str(GenericMessage)
              && o.log == Some(Logged(UnexpectedErrorLog, err.name, err.message, err.stack))
  {
    if res.headersSent then Outcome(res, NextWith(err), None)
    else
      var statusCode := if err.App? then err.error.statusCode else 500;
      var message := if err.App? then err.error.message else GenericMessage;
      var details := DetailsOf(err);
      var log := if err.App? then None else Some(Logged(UnexpectedErrorLog, err.name, err.message, err.stack));
      Outcome(SendJson(res, statusCode, ErrorBody(message, details)), Halt, log)
  }

  /** The handler reads back what the `AppError` constructor stored: the
      given status or the default 500, and the message, without logging. */
  lemma HandleReadsBackAppError(message: string, statusCode: Option<int>, isOperational: Option<bool>, res: Response)
    requires !res.headersSent
    ensures var o := Handle(App(NewAppError(message, statusCode, isOperational)), res);
            && o.res.status == statusCode.GetOr(500)
            && Js.Get(o.res.body.value, "message") == Js.Str(message)
            && o.log.None?
            && o.cont == Halt
  {
  }

  /** As written, no response the handler writes carries a `details` key. */
  lemma HandleNeverEmitsDetails(err: Thrown, res: Response)
    requires !res.headersSent
    ensures !Js.HasKey(Handle(err, res).res.body.value, "details")
  {
  }

  /** `isOperational` does not influence the response: the handler checks only `instanceof AppError`. */
  lemma HandleIgnoresIsOperational(message: string, statusCode: int, res: Response)
    requires !res.headersSent
    ensures Handle(App(AppError(message, statusCode, true)), res)
         == Handle(App(AppError(message, statusCode, false)), res)
  {
  }
}

=== FILE: graceful_shutdown.dfy ===
/** The in-flight request tracker, its read-out, the drain loop and the
    shutdown gate.

    The tracker is a process-wide counter plus, per admitted request, a
    one-shot `finalize` closure registered on both the `finish` and the
    `close` event of its response. Here the closures become tokens (the
    admission index of each request) and their `finalized` flags become the
    set of tokens already finalized, so an arbitrary interleaving of events
    is a sequence of `Event`s folded over a `Tracker`. */
module GracefulShutdown {
  import opened Core
  import Js
  import Http
  import Strings

  // ---------------------------------------------------------------------------
  // Tracker state machine
  // ---------------------------------------------------------------------------

  /** `active` is the module's `activeRequests`; requests `0 .. admitted-1`
      have been admitted, and `finalized` holds those whose closure has run. */
  datatype Tracker = Tracker(active: int, admitted: nat, finalized: set<nat>)

  /** The state at module load: `let activeRequests = 0`. */
  const Initial: Tracker := Tracker(0, 0, {})

  /** Interleaved events: a request enters the tracker, or the `finish` or
      `close` event of the response of request `token` fires. */
  datatype Event = Enter | Finish(token: nat) | Close(token: nat)

  function Max(a: int, b: int): int {
    if a < b then b else a
  }

  /** The tokens `0 .. n-1`. */
  function Range(n: nat): (r: set<nat>)
    ensures forall i: nat :: i in r <==> i < n
    decreases n
  {
    if n == 0 then {} else Range(n - 1) + {n - 1}
  }

  lemma {:induction false} RangeSize(n: nat)
    ensures |Range(n)| == n
    decreases n
  {
    if n > 0 {
      RangeSize(n - 1);
    }
  }

  /** Requests admitted and not yet finalized: those genuinely in flight. */
  ghost function Pending(t: Tracker): set<nat> {
    Range(t.admitted) - t.finalized
  }

  /** The counter agrees with the requests in flight: only admitted requests
      are finalized, and the counter is admitted minus finalized. */
  ghost predicate Valid(t: Tracker) {
    && (forall k :: k in t.finalized ==> k < t.admitted)
    && t.active == t.admitted - |t.finalized|
  }

  /** Only `n` tokens exist below `n`, so no more than `n` can be finalized. */
  lemma FinalizedBound(n: nat, finalized: set<nat>)
    requires forall k :: k in finalized ==> k < n
    ensures |finalized| <= n
  {
    assert finalized <= Range(n);
    RangeSize(n);
    SubsetSize(finalized, Range(n));
  }

  lemma {:induction false} SubsetSize(a: set<nat>, b: set<nat>)
    requires a <= b
    ensures |a| <= |b|
    decreases |b|
  {
    if a != {} {
      var x :| x in a;
      SubsetSize(a - {x}, b - {x});
    }
  }

  /** Under the invariant the counter is exactly the number of requests in flight. */
  lemma PendingSize(t: Tracker)
    ensures Valid(t) ==> t.active == |Pending(t)| >= 0
  {
    if Valid(t) {
      FinalizedBound(t.admitted, t.finalized);
      RangeSize(t.admitted);
      assert Range(t.admitted) == Pending(t) + t.finalized;
      assert Pending(t) * t.finalized == {};
    }
  }

  /** What `inFlightRequestTracker` does, in order. */
  datatype Effect = Listen(event: Http.ResEvent, token: nat) | CallNext

  datatype Admission = Admission(tracker: Tracker, token: nat, effects: seq<Effect>)

  /** `inFlightRequestTracker(req, res, next)`: count the request in, register
      its one-shot `finalize` on `finish` and on `close`, then call `next()`
      exactly once, last. */
  function Track(t: Tracker): (a: Admission)
    ensures a.tracker.active == t.active + 1
    ensures a.tracker.admitted == t.admitted + 1 && a.tracker.finalized == t.finalized
    ensures a.token == t.admitted
    ensures |a.effects| == 3
    ensures multiset(a.effects)[CallNext] == 1 && a.effects[|a.effects| - 1] == CallNext
    ensures Listen(Http.Finish, a.token) in a.effects[..|a.effects| - 1]
    ensures Listen(Http.Close, a.token) in a.effects[..|a.effects| - 1]
  {
    var token := t.admitted;
    var next := Tracker(t.active + 1, t.admitted + 1, t.finalized);
    var effects := [Listen(Http.Finish, token), Listen(Http.Close, token), CallNext];
    assert effects[..2] == [Listen(Http.Finish, token), Listen(Http.Close, token)];
    Admission(next, token, effects)
  }

  /** The `finalize` closure of request `token`. Events on a response the
      tracker never saw reach no closure and change nothing. */
  function Finalize(t: Tracker, token: nat): (r: Tracker)
    ensures r.admitted == t.admitted
    ensures r.finalized == if token < t.admitted then t.finalized + {token} else t.finalized
    ensures token >= t.admitted || token in t.finalized ==> r == t
    // The first call for an admitted token lowers the counter, floored at zero.
    ensures token < t.admitted && token !in t.finalized ==> r.active == Max(0, t.active - 1)
    ensures r != t ==> r.active >= 0
  {
    if token < t.admitted && token !in t.finalized then
      Tracker(Max(0, t.active - 1), t.admitted, t.finalized + {token})
    else
      t
  }

  /** One event. `Track` registered `finalize` for token `k` on both `finish`
      and `close` of that request's response, so the two completion events
      of an admitted token reach its closure; a token never admitted has no
      listener, which `Finalize` treats as a no-op. The `Listen` effects are
      the record of that registration, and `Step` dispatches accordingly. */
  function Step(t: Tracker, e: Event): Tracker {
    match e
    case Enter => Track(t).tracker
    case Finish(k) => Finalize(t, k)
    case Close(k) => Finalize(t, k)
  }

  /** Each event keeps the counter consistent: entering adds exactly the new
      token to the requests in flight, a completion removes exactly its own,
      and under the invariant the `Math.max(0, ...)` floor never takes effect. */
  lemma StepPreservesValid(t: Tracker, e: Event)
    requires Valid(t)
    ensures Valid(Step(t, e))
    ensures e.Enter? ==> t.admitted !in Pending(t) && Pending(Step(t, e)) == Pending(t) + {t.admitted}
    ensures !e.Enter? ==> Pending(Step(t, e)) == Pending(t) - {e.token}
    ensures !e.Enter? && e.token in Pending(t) ==> Step(t, e).active == t.active - 1
  {
    if e.Enter? {
      EnterPreservesValid(t);
    } else {
      FinalizePreservesValid(t, e.token);
    }
  }

  lemma EnterPreservesValid(t: Tracker)
    requires Valid(t)
    ensures Valid(Track(t).tracker)
    ensures t.admitted !in Pending(t) && Pending(Track(t).tracker) == Pending(t) + {t.admitted}
  {
    var r := Track(t).tracker;
    assert r == Tracker(t.active + 1, t.admitted + 1, t.finalized);
    assert t.admitted !in Range(t.admitted);
    assert t.admitted !in Pending(t);
    assert Range(r.admitted) == Range(t.admitted) + {t.admitted};
    assert t.admitted !in t.finalized;
    assert Pending(r) == Pending(t) + {t.admitted};
  }

  lemma FinalizePreservesValid(t: Tracker, k: nat)
    requires Valid(t)
    ensures Valid(Finalize(t, k))
    ensures Pending(Finalize(t, k)) == Pending(t) - {k}
    ensures k in Pending(t) ==> Finalize(t, k).active == t.active - 1
  {
    var r := Finalize(t, k);
    if k < t.admitted && k !in t.finalized {
      FinalizedBound(t.admitted, t.finalized + {k});
      assert |t.finalized + {k}| == |t.finalized| + 1;
      assert r.active == t.active - 1;
      assert Pending(r) == Pending(t) - {k};
    } else {
      assert r == t;
      assert k !in Pending(t);
    }
  }

  /** The state after a whole interleaving, applied in order. */
  function Run(t: Tracker, events: seq<Event>): Tracker
    decreases |events|
  {
    if |events| == 0 then t else Step(Run(t, events[..|events| - 1]), events[|events| - 1])
  }

  /** `getActiveRequests()`: a pure read of the counter, which under the
      invariant is the number of requests in flight. */
  function GetActiveRequests(t: Tracker): (n: int)
    ensures Valid(t) ==> n == |Pending(t)| && n >= 0
  {
    PendingSize(t);
    t.active
  }

  /** Every interleaving keeps the counter equal to the requests in flight,
      and so never negative. */
  lemma {:induction false} RunValid(t: Tracker, events: seq<Event>)
    requires Valid(t)
    ensures Valid(Run(t, events))
    ensures Run(t, events).active >= 0
    decreases |events|
  {
    if |events| > 0 {
      RunValid(t, events[..|events| - 1]);
      StepPreservesValid(Run(t, events[..|events| - 1]), events[|events| - 1]);
    }
    FinalizedBound(Run(t, events).admitted, Run(t, events).finalized);
  }

  /** Whichever of `finish` and `close` fires second is a no-op, and so is any repeat. */
  lemma SecondCompletionIsNoOp(t: Tracker, k: nat)
    ensures Step(Step(t, Finish(k)), Close(k)) == Step(t, Finish(k))
    ensures Step(Step(t, Close(k)), Finish(k)) == Step(t, Close(k))
    ensures Step(Step(t, Finish(k)), Finish(k)) == Step(t, Finish(k))
    ensures Step(Step(t, Close(k)), Close(k)) == Step(t, Close(k))
  {
  }

  // ---------------------------------------------------------------------------
  // Reference semantics over the event history
  // ---------------------------------------------------------------------------

  /** Number of `Enter` events. */
  function Entered(events: seq<Event>): nat
    decreases |events|
  {
    if |events| == 0 then 0
    else Entered(events[..|events| - 1]) + (if events[|events| - 1].Enter? then 1 else 0)
  }

  /** The distinct requests some of whose completion events fired after they entered. */
  ghost function Completed(events: seq<Event>): set<nat> {
    set i | 0 <= i < |events| && !events[i].Enter? && events[i].token < Entered(events[..i]) :: events[i].token
  }

  lemma CompletedSnoc(events: seq<Event>)
    requires |events| > 0
    ensures var prefix, e := events[..|events| - 1], events[|events| - 1];
            Completed(events)
            == Completed(prefix) + (if !e.Enter? && e.token < Entered(prefix) then {e.token} else {})
  {
    var prefix := events[..|events| - 1];
    forall i | 0 <= i < |prefix|
      ensures prefix[..i] == events[..i]
    {
    }
    assert events[..|events| - 1] == prefix;
  }

  /** The tracker admits one token per `Enter` and finalizes exactly the completed requests. */
  lemma {:induction false} HistoryMatchesEvents(events: seq<Event>)
    ensures Run(Initial, events).admitted == Entered(events)
    ensures Run(Initial, events).finalized == Completed(events)
    decreases |events|
  {
    if |events| > 0 {
      HistoryMatchesEvents(events[..|events| - 1]);
      CompletedSnoc(events);
    }
  }

  /** For any interleaving: the count is the number of `Enter`s minus the
      number of distinct requests that completed, and is never negative. */
  lemma ActiveIsEnteredMinusCompleted(events: seq<Event>)
    ensures Completed(events) <= Range(Entered(events))
    ensures Run(Initial, events).active == Entered(events) - |Completed(events)|
    ensures Run(Initial, events).active >= 0
  {
    RunValid(Initial, events);
    HistoryMatchesEvents(events);
  }

  // ---------------------------------------------------------------------------
  // At-most-once finalization
  // ---------------------------------------------------------------------------

  /** Event `e` runs request `k`'s closure with effect in state `t`. */
  predicate Effective(t: Tracker, e: Event, k: nat) {
    !e.Enter? && e.token == k && k < t.admitted && k !in t.finalized
  }

  /** A step only ever adds to `finalized`, and adds `k` exactly when it is effective for `k`. */
  lemma StepFinalized(s: Tracker, e: Event, k: nat)
    ensures s.finalized <= Step(s, e).finalized
    ensures k in Step(s, e).finalized <==> k in s.finalized || Effective(s, e, k)
  {
  }

  /** How many events of the run decrement on behalf of request `k`. */
  function Decrements(t: Tracker, events: seq<Event>, k: nat): nat
    decreases |events|
  {
    if |events| == 0 then 0
    else
      var prefix := events[..|events| - 1];
      Decrements(t, prefix, k) + (if Effective(Run(t, prefix), events[|events| - 1], k) then 1 else 0)
  }

  /** A request's `finalize` takes effect once if the request ends the run
      finalized (and was not already), and otherwise never. */
  lemma {:induction false} FinalizeTakesEffectAtMostOnce(t: Tracker, events: seq<Event>, k: nat)
    ensures t.finalized <= Run(t, events).finalized
    ensures Decrements(t, events, k) == (if k in Run(t, events).finalized && k !in t.finalized then 1 else 0)
    ensures Decrements(t, events, k) <= 1
    decreases |events|
  {
    if |events| > 0 {
      var prefix, e := events[..|events| - 1], events[|events| - 1];
      FinalizeTakesEffectAtMostOnce(t, prefix, k);
      var s := Run(t, prefix);
      StepFinalized(s, e, k);
      assert Run(t, events) == Step(s, e);
      assert Decrements(t, events, k) == Decrements(t, prefix, k) + (if Effective(s, e, k) then 1 else 0);
    }
  }

  // ---------------------------------------------------------------------------
  // Drain loop
  // ---------------------------------------------------------------------------

  const DefaultTimeoutMs: int := 25_000
  const DefaultPollMs: int := 100

  /** The optional `{ timeoutMs?, pollMs? }` argument. */
  datatype DrainOptions = DrainOptions(timeoutMs: Option<int>, pollMs: Option<int>)

  /** `options?.timeoutMs ?? 25_000`. */
  function TimeoutMs(options: Option<DrainOptions>): (ms: int)
    ensures options.None? || options.value.timeoutMs.None? ==> ms == 25_000
    ensures options.Some? && options.value.timeoutMs.Some? ==> ms == options.value.timeoutMs.value
  {
    if options.Some? then options.value.timeoutMs.GetOr(DefaultTimeoutMs) else DefaultTimeoutMs
  }

  /** `options?.pollMs ?? 100`. */
  function PollMs(options: Option<DrainOptions>): (ms: int)
    ensures options.None? || options.value.pollMs.None? ==> ms == 100
    ensures options.Some? && options.value.pollMs.Some? ==> ms == options.value.pollMs.value
  {
    if options.Some? then options.value.pollMs.GetOr(DefaultPollMs) else DefaultPollMs
  }

  /** One turn of the loop observes the clock (`Date.now()`) and the counter. */
  datatype Sample = Sample(now: int, active: int)

  /** How the wait ends after `sleeps` poll-interval sleeps: the counter read
      zero, the elapsed time exceeded the timeout (the thrown error carries
      the count), or the observations ran out with the loop still waiting. */
  datatype DrainResult =
    | Drained(sleeps: nat)
    | TimedOut(sleeps: nat, active: int, message: string)
    | Waiting(sleeps: nat)

  /** The loop keeps polling after observing `s`. */
  predicate KeepsPolling(timeoutMs: int, start: int, s: Sample) {
    s.active > 0 && s.now - start <= timeoutMs
  }

  function TimeoutMessage(active: int): string {
    var count := if active >= 0 then Strings.NatToString(active) else "-" + Strings.NatToString(-active);
    "Timed out waiting for in-flight requests to drain (active=" + count + ")"
  }

  /** The loop from its `i`-th turn on: it stops at the first sample that
      reads zero or that is past the timeout, and only there. */
  function DrainFrom(timeoutMs: int, start: int, samples: seq<Sample>, i: nat): (r: DrainResult)
    requires i <= |samples|
    ensures i <= r.sleeps <= |samples|
    ensures forall j :: i <= j < r.sleeps ==> KeepsPolling(timeoutMs, start, samples[j])
    ensures r.Drained? ==> r.sleeps < |samples| && samples[r.sleeps].active <= 0
    ensures r.TimedOut? ==>
              && r.sleeps < |samples|
              && samples[r.sleeps].active > 0
              && samples[r.sleeps].now - start > timeoutMs
              && r.active == samples[r.sleeps].active
              && r.message == TimeoutMessage(r.active)
    ensures r.Waiting? ==> r.sleeps == |samples|
    decreases |samples| - i
  {
    if i == |samples| then Waiting(i)
    else if samples[i].active <= 0 then Drained(i)
    else if samples[i].now - start > timeoutMs then TimedOut(i, samples[i].active, TimeoutMessage(samples[i].active))
    else DrainFrom(timeoutMs, start, samples, i + 1)
  }

  /** `waitForActiveRequestsToDrain(options)` started at time `start`,
      observing `samples` on successive turns. */
  function Drain(options: Option<DrainOptions>, start: int, samples: seq<Sample>): (r: DrainResult)
    // Already zero: return at once, without sleeping.
    ensures |samples| > 0 && samples[0].active <= 0 ==> r == Drained(0)
    ensures r.sleeps <= |samples| && (r.Waiting? <==> r.sleeps == |samples|)
    // Throws only with work still in flight and strictly more than timeoutMs elapsed.
    ensures r.TimedOut? ==>
              r.active > 0 && samples[r.sleeps].now - start > TimeoutMs(options)
              && samples[r.sleeps].active == r.active
              && r.message == TimeoutMessage(r.active)
    // Every earlier turn saw work in flight and was within the timeout.
    ensures forall j :: 0 <= j < r.sleeps ==> KeepsPolling(TimeoutMs(options), start, samples[j])
    ensures r.Drained? ==> samples[r.sleeps].active <= 0
  {
    DrainFrom(TimeoutMs(options), start, samples, 0)
  }

  /** The loop itself. Each turn past the checks awaits a `PollMs(options)`
      timer; the sleep is visible only as the clock advancing between samples. */
  method WaitForActiveRequestsToDrain(options: Option<DrainOptions>, start: int, samples: seq<Sample>)
    returns (r: DrainResult)
    ensures r == Drain(options, start, samples)
    ensures r.Drained? ==> r.sleeps < |samples| && samples[r.sleeps].active <= 0
    ensures r.TimedOut? ==> r.sleeps < |samples| && samples[r.sleeps].now - start > TimeoutMs(options)
  {
    var timeoutMs := TimeoutMs(options);
    var i := 0;
    while i < |samples| && samples[i].active > 0
      invariant 0 <= i <= |samples|
      invariant DrainFrom(timeoutMs, start, samples, i) == DrainFrom(timeoutMs, start, samples, 0)
      decreases |samples| - i
    {
      if samples[i].now - start > timeoutMs {
        return TimedOut(i, samples[i].active, TimeoutMessage(samples[i].active));
      }
      i := i + 1;
    }
    if i == |samples| {
      return Waiting(i);
    }
    return Drained(i);
  }

  /** With timers that fire on time (consecutive turns at most one poll
      interval apart) and work that never drains, the loop throws after
      more than the timeout and no later than one poll interval beyond it. */
  lemma TimeoutWithinOnePoll(options: Option<DrainOptions>, start: int, samples: seq<Sample>)
    requires |samples| > 0
    requires samples[0].now - start <= TimeoutMs(options)
    requires forall j :: 0 < j < |samples| ==> samples[j].now - samples[j - 1].now <= PollMs(options)
    requires forall j :: 0 <= j < |samples| ==> samples[j].active > 0
    requires samples[|samples| - 1].now - start > TimeoutMs(options)
    ensures Drain(options, start, samples).TimedOut?
    ensures var k := Drain(options, start, samples).sleeps;
            TimeoutMs(options) < samples[k].now - start <= TimeoutMs(options) + PollMs(options)
  {
    var r := Drain(options, start, samples);
    var k := r.sleeps;
    assert k > 0;
    assert KeepsPolling(TimeoutMs(options), start, samples[k - 1]);
  }

  // ---------------------------------------------------------------------------
  // Shutdown gate
  // ---------------------------------------------------------------------------

  const ShutdownMessage: string := "Server is shutting down"

  /** The rejection body `{ ok: false, message: "Server is shutting down" }`. */
  const ShutdownBody: Js.Value := Js.Obj([("ok", Js.Bool(false)), ("message", Js.Str(ShutdownMessage))])

  datatype Gated = Gated(res: Http.Response, cont: Http.Cont)

  /** `shutdownGate(req, res, next)`, given `req.app.locals.isShuttingDown`. */
  function ShutdownGate(isShuttingDown: Js.Value, res: Http.Response): (g: Gated)
    // Not shutting down: pass through, touching nothing.
    ensures !Js.Truthy(isShuttingDown) ==> g == Gated(res, Http.Next)
    // Shutting down: a 503 with both headers and the fixed body; `next` is never called.
    ensures Js.Truthy(isShuttingDown) ==>
              && g.cont == Http.Halt
              && g.res.status == 503
              && g.res.headersSent
              && "Connection" in g.res.headers && g.res.headers["Connection"] == "close"
              && "Retry-After" in g.res.headers && g.res.headers["Retry-After"] == "5"
              && g.res.body == Some(ShutdownBody)
              && Js.Get(g.res.body.value, "ok") == Js.Bool(false)
              && Js.Get(g.res.body.value, "message") == Js.Str(ShutdownMessage)
              && g.res.headers.Keys == res.headers.Keys + {"Connection", "Retry-After"}
    ensures Js.Truthy(isShuttingDown) ==>
              forall h :: h in res.headers && h !in {"Connection", "Retry-After"} ==>
                h in g.res.headers && g.res.headers[h] == res.headers[h]
  {
    if !Js.Truthy(isShuttingDown) then Gated(res, Http.Next)
    else
      var res1 := Http.SetHeader(res, "Connection", "close");
      var res2 := Http.SetHeader(res1, "Retry-After", "5");
      assert Js.Lookup(ShutdownBody.fields[1..], "message") == Js.Str(ShutdownMessage);
      Gated(Http.SendJson(res2, 503, ShutdownBody), Http.Halt)
  }
}

=== FILE: http.dfy ===
/** The framework objects the middleware touches, reduced to records. */
module Http {
  import opened Core
  import Js
  import AppErrors

  /** A response: status code, headers as set by `setHeader`, the JSON body
      once one is sent, and whether the head has gone out. */
  datatype Response = Response(status: int, headers: map<string, string>, body: Option<Js.Value>, headersSent: bool)

  /** What a middleware does with the chain. A middleware returns exactly one
      of these, so `next` is called at most once by construction:
      `Next` is `next()`, `NextWith(e)` is `next(e)`, `Halt` is not calling it. */
  datatype Cont = Next | NextWith(err: AppErrors.Thrown) | Halt

  /** The two response events listeners are registered on. */
  datatype ResEvent = Finish | Close

  /** `res.setHeader(name, value)`. */
  function SetHeader(res: Response, name: string, value: string): (r: Response)
    ensures name in r.headers && r.headers[name] == value
    ensures forall k :: k in res.headers && k != name ==> k in r.headers && r.headers[k] == res.headers[k]
    ensures r.status == res.status && r.body == res.body && r.headersSent == res.headersSent
  {
    res.(headers := res.headers[name := value])
  }

  /** `res.status(status).json(body)`: the head and the body go out together. */
  function SendJson(res: Response, status: int, body: Js.Value): (r: Response)
    ensures r.status == status && r.body == Some(body) && r.headersSent
    ensures r.headers == res.headers
  {
    res.(status := status, body := Some(body), headersSent := true)
  }
}

=== FILE: js.dfy ===
/** The fragment of JavaScript's value model that the middleware observes:
    truthiness (`!x`, `x || y`, `Boolean(x)`), loose equality with `undefined`
    (`x != undefined`) and property lookup on plain objects. */
module Js {

  /** A JavaScript value. Numbers are integers (no NaN, no fractions); an object
      is its list of own enumerable properties in insertion order. */
  datatype Value =
    | Undefined
    | Null
    | Bool(b: bool)
    | Num(n: int)
    | Str(s: string)
    | Arr(items: seq<Value>)
    | Obj(fields: seq<(string, Value)>)

  /** `Boolean(v)`: false exactly for undefined, null, false, 0 and "". */
  predicate Truthy(v: Value) {
    match v
    case Undefined => false
    case Null => false
    case Bool(b) => b
    case Num(n) => n != 0
    case Str(s) => s != ""
    case Arr(_) => true
    case Obj(_) => true
  }

  /** `v == undefined` under loose equality: holds for undefined and null only. */
  predicate Nullish(v: Value) {
    v.Undefined? || v.Null?
  }

  /** The object `v` has an own property called `key`. */
  predicate HasKey(v: Value, key: string) {
    v.Obj? && exists i :: 0 <= i < |v.fields| && v.fields[i].0 == key
  }

  /** Property lookup `v[key]`: the first property with that name, or undefined. */
  function Get(v: Value, key: string): (r: Value)
    ensures !HasKey(v, key) ==> r == Undefined
    ensures HasKey(v, key) ==> exists i :: 0 <= i < |v.fields| && v.fields[i] == (key, r)
  {
    if v.Obj? then Lookup(v.fields, key) else Undefined
  }

  function Lookup(fields: seq<(string, Value)>, key: string): (r: Value)
    ensures (forall i :: 0 <= i < |fields| ==> fields[i].0 != key) ==> r == Undefined
    ensures (exists i :: 0 <= i < |fields| && fields[i].0 == key) ==>
              exists i :: 0 <= i < |fields| && fields[i] == (key, r)
  {
    if |fields| == 0 then Undefined
    else if fields[0].0 == key then fields[0].1
    else
      var r := Lookup(fields[1..], key);
      assert forall i :: 1 <= i < |fields| ==> fields[i] == fields[1..][i - 1];
      r
  }
}

=== FILE: request_id.dfy ===
/** The request-id middleware: reuse the caller's `x-request-id`, or mint a
    fresh one, and make it visible on the request, the response and `req.requestId`. */
module RequestId {
  import opened Core
  import Http

  const HeaderName: string := "x-request-id"

  /** The request fields involved; header names are the lower-case names Node stores. */
  datatype Request = Request(headers: map<string, string>, requestId: Option<string>)

  datatype Handled = Handled(req: Request, res: Http.Response, cont: Http.Cont)

  /** The incoming header carries a usable id (present and not empty). */
  predicate HasIncomingId(req: Request) {
    HeaderName in req.headers && req.headers[HeaderName] != ""
  }

  /** `requestIdMiddleware(req, res, next)`; `newId` is what `uuidv4()` returns. */
  function RequestIdMiddleware(req: Request, res: Http.Response, newId: string): (h: Handled)
    ensures h.req.requestId.Some?
    ensures HasIncomingId(req) ==> h.req.requestId.value == req.headers[HeaderName]
    ensures !HasIncomingId(req) ==> h.req.requestId.value == newId
    // The same id on the request header, the response header and `req.requestId`.
    ensures HeaderName in h.req.headers && h.req.headers[HeaderName] == h.req.requestId.value
    ensures HeaderName in h.res.headers && h.res.headers[HeaderName] == h.req.requestId.value
    // No other header and nothing else about the response changes.
    ensures forall k :: k != HeaderName ==>
              (k in h.req.headers <==> k in req.headers) && (k in req.headers ==> h.req.headers[k] == req.headers[k])
    ensures forall k :: k != HeaderName ==>
              (k in h.res.headers <==> k in res.headers) && (k in res.headers ==> h.res.headers[k] == res.headers[k])
    ensures h.res.status == res.status && h.res.body == res.body && h.res.headersSent == res.headersSent
    ensures h.cont == Http.Next
  {
    var id := if HasIncomingId(req) then req.headers[HeaderName] else newId;
    Handled(Request(req.headers[HeaderName := id], Some(id)), Http.SetHeader(res, HeaderName, id), Http.Next)
  }

  /** Running the middleware again (say, behind a proxy hop that forwards the
      header) keeps the id it chose, whatever new id the second run draws. */
  lemma RequestIdIsStable(req: Request, res: Http.Response, newId1: string, newId2: string)
    requires newId1 != ""
    ensures var h1 := RequestIdMiddleware(req, res, newId1);
            var h2 := RequestIdMiddleware(h1.req, h1.res, newId2);
            h2 == h1
  {
  }
}

=== FILE: request_logger.dfy ===
/** The request logger: on `finish` it logs one structured line whose level
    follows the response status. */
module RequestLogger {
  import opened Core
  import Http

  datatype Level = Error | Warn | Info

  /** The level for a response status. */
  function LevelFor(status: int): (l: Level)
    ensures l == Error <==> status >= 500
    ensures l == Warn <==> 400 <= status < 500
    ensures l == Info <==> status < 400
  {
    if status >= 500 then Error else if status >= 400 then Warn else Info
  }

  datatype User = User(id: Option<string>)

  /** The request fields the log line reads. `routePath` is `req.route?.path`. */
  datatype Request = Request(
    requestId: Option<string>,
    routePath: Option<string>,
    httpMethod: string,
    originalUrl: string,
    user: Option<User>,
    ip: Option<string>,
    userAgent: Option<string>)

  /** The logged metadata; a `None` user id is logged as `null`. */
  datatype Record = Record(
    requestId: Option<string>,
    route: string,
    httpMethod: string,
    path: string,
    statusCode: int,
    userId: Option<string>,
    ip: Option<string>,
    userAgent: Option<string>)

  datatype LogLine = LogLine(level: Level, message: string, record: Record)

  const LogMessage: string := "http_request"

  /** The `finish` listener, reading the response as it is at that moment. */
  function OnFinish(req: Request, res: Http.Response): (line: LogLine)
    ensures line.level == LevelFor(res.status) && line.message == "http_request"
    ensures line.record.statusCode == res.status
    ensures line.record.path == req.originalUrl && line.record.httpMethod == req.httpMethod
    ensures line.record.requestId == req.requestId
    // route: the matched route's path, falling back to the original URL.
    ensures req.routePath.Some? ==> line.record.route == req.routePath.value
    ensures req.routePath.None? ==> line.record.route == req.originalUrl
    // userId: the user's id, or null when there is no user or no id.
    ensures req.user.Some? && req.user.value.id.Some? ==> line.record.userId == req.user.value.id
    ensures req.user.None? || req.user.value.id.None? ==> line.record.userId.None?
    ensures line.record.ip == req.ip && line.record.userAgent == req.userAgent
  {
    var userId := if req.user.Some? then req.user.value.id else None;
    LogLine(
      LevelFor(res.status),
      LogMessage,
      Record(req.requestId, req.routePath.GetOr(req.originalUrl), req.httpMethod, req.originalUrl,
             res.status, userId, req.ip, req.userAgent))
  }

  /** How many times `e` occurs in `s`. */
  function Count(s: seq<Http.ResEvent>, e: Http.ResEvent): nat {
    multiset(s)[e]
  }

  /** The lines logged while a response goes through `events`: one per
      `finish`, none for `close`. */
  function Logged(events: seq<Http.ResEvent>, req: Request, res: Http.Response): (lines: seq<LogLine>)
    ensures |lines| == Count(events, Http.Finish)
    ensures forall i :: 0 <= i < |lines| ==> lines[i] == OnFinish(req, res)
    decreases |events|
  {
    if |events| == 0 then []
    else
      assert events == [events[0]] + events[1..];
      (if events[0] == Http.Finish then [OnFinish(req, res)] else []) + Logged(events[1..], req, res)
  }

  /** `n` copies of `line`. */
  function Copies(line: LogLine, n: nat): (lines: seq<LogLine>)
    ensures |lines| == n && forall i :: 0 <= i < n ==> lines[i] == line
  {
    if n == 0 then [] else [line] + Copies(line, n - 1)
  }

  /** The lines logged when `events` fire on a response carrying the logging
      listener once per entry of `listeners` (each entry names the event it
      is registered on): every event runs each listener registered for it. */
  function Dispatch(listeners: seq<Http.ResEvent>, events: seq<Http.ResEvent>, req: Request, res: Http.Response)
    : (lines: seq<LogLine>)
    ensures |lines| == Count(events, Http.Finish) * Count(listeners, Http.Finish)
                       + Count(events, Http.Close) * Count(listeners, Http.Close)
    ensures forall i :: 0 <= i < |lines| ==> lines[i] == OnFinish(req, res)
    decreases |events|
  {
    if |events| == 0 then []
    else
      var here := Copies(OnFinish(req, res), Count(listeners, events[0]));
      var rest := Dispatch(listeners, events[1..], req, res);
      DispatchLength(listeners, events, |here|, |rest|);
      here + rest
  }

  /** Counting the first event apart from the rest. */
  lemma CountFirst(events: seq<Http.ResEvent>, e: Http.ResEvent)
    requires |events| > 0
    ensures Count(events, e) == (if events[0] == e then 1 else 0) + Count(events[1..], e)
  {
    assert events == [events[0]] + events[1..];
  }

  /** The length step of `Dispatch`: the first event adds one line per
      listener registered for it. */
  lemma DispatchLength(listeners: seq<Http.ResEvent>, events: seq<Http.ResEvent>, h: nat, r: nat)
    requires |events| > 0
    requires h == Count(listeners, events[0])
    requires r == Count(events[1..], Http.Finish) * Count(listeners, Http.Finish)
                  + Count(events[1..], Http.Close) * Count(listeners, Http.Close)
    ensures h + r == Count(events, Http.Finish) * Count(listeners, Http.Finish)
                     + Count(events, Http.Close) * Count(listeners, Http.Close)
  {
    CountFirst(events, Http.Finish);
    CountFirst(events, Http.Close);
    var lf, lc := Count(listeners, Http.Finish), Count(listeners, Http.Close);
    var ef, ec := Count(events[1..], Http.Finish), Count(events[1..], Http.Close);
    if events[0] == Http.Finish {
      MulSucc(ef, lf);
      assert h + r == (ef + 1) * lf + ec * lc;
    } else {
      MulSucc(ec, lc);
      assert h + r == ef * lf + (ec + 1) * lc;
    }
  }

  lemma MulSucc(a: nat, b: nat)
    ensures (a + 1) * b == a * b + b
  {
  }

  /** A single listener on `finish` logs exactly the lines `Logged` counts:
      one per `finish`, none per `close`, over every event sequence. */
  lemma {:induction false} FinishListenerLogsPerFinish(events: seq<Http.ResEvent>, req: Request, res: Http.Response)
    ensures Dispatch([Http.Finish], events, req, res) == Logged(events, req, res)
  {
    var a := Dispatch([Http.Finish], events, req, res);
    var b := Logged(events, req, res);
    assert multiset([Http.Finish])[Http.Finish] == 1;
    assert multiset([Http.Finish])[Http.Close] == 0;
    assert |a| == |b|;
    forall i | 0 <= i < |a|
      ensures a[i] == b[i]
    {
    }
  }

  datatype Handled = Handled(listeners: seq<Http.ResEvent>, cont: Http.Cont)

  /** `requestLogger(req, res, next)`: register the logging listener, then
      call `next()` unconditionally. Nothing is logged at this point; whatever
      the response later goes through, the registered listeners log one line
      per `finish`, read from the response as it is then, and none per `close`. */
  function RequestLoggerMiddleware(req: Request): (h: Handled)
    ensures h.cont == Http.Next
    ensures forall events, res {:trigger Dispatch(h.listeners, events, req, res)} ::
              Dispatch(h.listeners, events, req, res) == Logged(events, req, res)
  {
    FinishListenerLogsAlways(req);
    Handled([Http.Finish], Http.Next)
  }

  lemma FinishListenerLogsAlways(req: Request)
    ensures forall events, res {:trigger Dispatch([Http.Finish], events, req, res)} ::
              Dispatch([Http.Finish], events, req, res) == Logged(events, req, res)
  {
    forall events, res
      ensures Dispatch([Http.Finish], events, req, res) == Logged(events, req, res)
    {
      FinishListenerLogsPerFinish(events, req, res);
    }
  }
}

=== FILE: strings.dfy ===
/** The string operations a Zod issue path goes through on its way into a
    validation detail: `Array.prototype.join` with a separator, and the
    decimal rendering of an array index. `Split` is the inverse used to state
    that the joined path loses nothing. */
module Strings {

  /** `parts.join(sep)`: an empty array gives "". */
  function Join(parts: seq<string>, sep: string): (r: string)
    ensures |parts| == 1 ==> r == parts[0]
    decreases |parts|
  {
    if |parts| == 0 then ""
    else if |parts| == 1 then parts[0]
    else parts[0] + sep + Join(parts[1..], sep)
  }

  /** `s.split(c)` for a one-character separator: always at least one piece. */
  function Split(s: string, c: char): (r: seq<string>)
    ensures |r| >= 1
    decreases |s|
  {
    if |s| == 0 then [""]
    else
      var rest := Split(s[1..], c);
      if s[0] == c then [""] + rest
      else [[s[0]] + rest[0]] + rest[1..]
  }

  /** A piece free of the separator is glued to the first piece of what follows. */
  lemma {:induction false} SplitPrefix(p: string, tail: string, c: char)
    requires c !in p
    ensures Split(p + tail, c) == [p + Split(tail, c)[0]] + Split(tail, c)[1..]
    decreases |p|
  {
    if |p| > 0 {
      assert (p + tail)[1..] == p[1..] + tail;
      SplitPrefix(p[1..], tail, c);
      assert [p[0]] + (p[1..] + Split(tail, c)[0]) == p + Split(tail, c)[0];
    } else {
      var r := Split(tail, c);
      assert p + tail == tail;
      assert p + r[0] == r[0];
      assert [r[0]] + r[1..] == r;
    }
  }

  /** Joining separator-free pieces and splitting again gives the pieces back. */
  lemma {:induction false} SplitJoin(parts: seq<string>, c: char)
    requires |parts| >= 1
    requires forall i :: 0 <= i < |parts| ==> c !in parts[i]
    ensures Split(Join(parts, [c]), c) == parts
    decreases |parts|
  {
    if |parts| == 1 {
      SplitPrefix(parts[0], "", c);
      assert parts[0] + "" == parts[0];
    } else {
      var rest := Join(parts[1..], [c]);
      assert Join(parts, [c]) == parts[0] + ([c] + rest);
      SplitPrefix(parts[0], [c] + rest, c);
      assert ([c] + rest)[1..] == rest;
      SplitJoin(parts[1..], c);
      assert Split([c] + rest, c) == [""] + parts[1..];
      assert parts[0] + "" == parts[0];
      assert [parts[0]] + parts[1..] == parts;
    }
  }

  predicate IsDigit(ch: char) {
    '0' <= ch <= '9'
  }

  function DigitChar(d: nat): (ch: char)
    requires d < 10
    ensures IsDigit(ch)
  {
    ('0' as int + d) as char
  }

  /** `String(n)` for a non-negative integer: its decimal digits, no leading zero. */
  function NatToString(n: nat): (r: string)
    ensures |r| >= 1
    ensures forall i :: 0 <= i < |r| ==> IsDigit(r[i])
    ensures |r| > 1 ==> r[0] != '0'
    decreases n
  {
    if n < 10 then [DigitChar(n)] else NatToString(n / 10) + [DigitChar(n % 10)]
  }

  /** The value of a string of decimal digits. */
  function DigitsValue(s: string): nat
    requires forall i :: 0 <= i < |s| ==> IsDigit(s[i])
    decreases |s|
  {
    if |s| == 0 then 0
    else
      assert IsDigit(s[|s| - 1]);
      DigitsValue(s[..|s| - 1]) * 10 + (s[|s| - 1] as int - '0' as int)
  }

  /** Reading the digits back gives the number: the rendering is faithful. */
  lemma {:induction false} DigitsValueNatToString(n: nat)
    ensures DigitsValue(NatToString(n)) == n
    decreases n
  {
    var r := NatToString(n);
    if n >= 10 {
      DigitsValueNatToString(n / 10);
      assert r[..|r| - 1] == NatToString(n / 10);
    }
  }
}

=== FILE: validate.dfy ===
/** `initValidated`: the middleware that gives every request a `validated`
    record holding its raw parts, for `validate(...)` to refine later. */
module ValidateMiddleware {
  import opened Core
  import Js
  import Http

  /** `req.validated`. `file` and `files` are optional keys: `None` is an absent key. */
  datatype Validated = Validated(
    params: Js.Value,
    query: Js.Value,
    headers: Js.Value,
    body: Js.Value,
    file: Option<Js.Value>,
    files: Option<Js.Value>)

  /** The request parts the validation middleware reads and writes.
      `file`/`files` are `Js.Undefined` when no upload middleware set them. */
  datatype Request = Request(
    params: Js.Value,
    query: Js.Value,
    headers: Js.Value,
    body: Js.Value,
    file: Js.Value,
    files: Js.Value,
    validated: Option<Validated>)

  datatype Handled = Handled(req: Request, cont: Http.Cont)

  /** The record both middlewares build from the raw parts. */
  function FromRaw(req: Request): (v: Validated)
    ensures v.params == req.params && v.query == req.query
    ensures v.headers == req.headers && v.body == req.body
    ensures v.file.None? && v.files.None?
  {
    Validated(req.params, req.query, req.headers, req.body, None, None)
  }

  /** `initValidated(req, res, next)`: overwrite `req.validated` with the raw
      parts, whatever was there, then call `next()` with no error. */
  function InitValidated(req: Request): (h: Handled)
    ensures h.cont == Http.Next
    ensures h.req.validated.Some?
    ensures var v := h.req.validated.value;
            && v.body == req.body && v.query == req.query
            && v.params == req.params && v.headers == req.headers
            && v.file.None? && v.files.None?
    // Only `validated` changes; its new contents never mention the old ones.
    ensures h.req.(validated := req.validated) == req
  {
    Handled(req.(validated := Some(FromRaw(req))), Http.Next)
  }
}

=== FILE: validator.dfy ===
/** `validatePart` and the `validate(schemas)` middleware: the request parts
    are checked in a fixed order against optional schemas, stopping at the
    first failure. A schema is an opaque parser from a value to either parsed
    data or a list of issues. */
module Validator {
  import opened Core
  import Js
  import Strings
  import opened AppErrors
  import Http
  import ErrorHandler
  import opened ValidateMiddleware

  /** One step of an issue's path: an object key or an array index. */
  datatype PathSegment = Key(name: string) | Index(index: nat)

  datatype Issue = Issue(path: seq<PathSegment>, message: string, code: string)

  /** The outcome of `schema.safeParse(value)`. */
  datatype Parse = Parsed(data: Js.Value) | Invalid(issues: seq<Issue>)

  type Schema = Js.Value -> Parse

  /** `RequestPartSchemas`: every schema is optional. */
  datatype Schemas = Schemas(
    params: Option<Schema>,
    query: Option<Schema>,
    headers: Option<Schema>,
    body: Option<Schema>,
    file: Option<Schema>,
    files: Option<Schema>)

  const NoSchemas: Schemas := Schemas(None, None, None, None, None, None)

  // ---------------------------------------------------------------------------
  // Issue details
  // ---------------------------------------------------------------------------

  /** A `ValidationIssue`: the dotted path, the message and the code. */
  datatype Detail = Detail(path: string, message: string, code: string)

  /** A path segment as `join` renders it. */
  function SegmentText(s: PathSegment): string {
    match s
    case Key(name) => name
    case Index(i) => Strings.NatToString(i)
  }

  function PathTexts(path: seq<PathSegment>): (r: seq<string>)
    ensures |r| == |path|
    ensures forall i :: 0 <= i < |path| ==> r[i] == SegmentText(path[i])
  {
    seq(|path|, i requires 0 <= i < |path| => SegmentText(path[i]))
  }

  /** `issue.path.join(".")` together with the copied message and code. */
  function IssueDetail(issue: Issue): Detail {
    Detail(Strings.Join(PathTexts(issue.path), "."), issue.message, issue.code)
  }

  /** `issues.map(...)`: one detail per issue, in the same order. */
  function IssueDetails(issues: seq<Issue>): (ds: seq<Detail>)
    ensures |ds| == |issues|
    ensures forall i :: 0 <= i < |issues| ==>
              ds[i].message == issues[i].message && ds[i].code == issues[i].code
    ensures forall i :: 0 <= i < |issues| ==>
              ds[i].path == Strings.Join(PathTexts(issues[i].path), ".")
  {
    seq(|issues|, i requires 0 <= i < |issues| => IssueDetail(issues[i]))
  }

  /** Joining loses nothing: when no key contains a dot, splitting a
      non-empty detail path at the dots gives back the path's segments. */
  lemma DetailPathRoundTrip(issue: Issue)
    requires |issue.path| >= 1
    requires forall i :: 0 <= i < |issue.path| && issue.path[i].Key? ==> '.' !in issue.path[i].name
    ensures Strings.Split(IssueDetail(issue).path, '.') == PathTexts(issue.path)
  {
    var texts := PathTexts(issue.path);
    // Index segments render as digits, so only keys could hold a dot.
    assert forall i :: 0 <= i < |texts| ==> '.' !in texts[i];
    assert "." == ['.'];
    Strings.SplitJoin(texts, '.');
  }

  /** Every detail in the list built for a failure splits back into its
      issue's path segments, under the same conditions as one detail. */
  lemma IssueDetailsPathsRoundTrip(issues: seq<Issue>, k: nat)
    requires k < |issues|
    requires |issues[k].path| >= 1
    requires forall i :: 0 <= i < |issues[k].path| && issues[k].path[i].Key? ==> '.' !in issues[k].path[i].name
    ensures Strings.Split(IssueDetails(issues)[k].path, '.') == PathTexts(issues[k].path)
  {
    DetailPathRoundTrip(issues[k]);
  }

  // ---------------------------------------------------------------------------
  // One part
  // ---------------------------------------------------------------------------

  datatype PartResult = Ok(data: Js.Value) | Failed(error: AppError)

  const ValidationStatus: int := 400

  function FailureMessage(schemaName: string): string {
    "Validation Failed for " + schemaName
  }

  /** `validatePart(schemaName, schema, value)`. On failure the issue details
      are built and passed as a fourth constructor argument, which `AppError`
      does not accept; the error therefore carries none. */
  function ValidatePart(schemaName: string, schema: Option<Schema>, value: Js.Value): (r: PartResult)
    // No schema: the value passes through unchanged.
    ensures schema.None? ==> r == Ok(value)
    // A successful parse yields the parsed data, not the raw value.
    ensures schema.Some? && schema.value(value).Parsed? ==> r == Ok(schema.value(value).data)
    // Failure is exactly a failed parse, and it is an operational 400 naming the part.
    ensures r.Failed? <==> schema.Some? && schema.value(value).Invalid?
    ensures r.Failed? ==>
              && r.error.statusCode == 400
              && r.error.isOperational
              && r.error.message == "Validation Failed for " + schemaName
  {
    if schema.None? then Ok(value)
    else
      match schema.value(value)
      case Parsed(data) => Ok(data)
      case Invalid(_) => Failed(NewAppError(FailureMessage(schemaName), Some(ValidationStatus), Some(true)))
  }

  // ---------------------------------------------------------------------------
  // The pipeline
  // ---------------------------------------------------------------------------

  datatype Part = Params | Query | Headers | Body | File | Files

  /** The order in which `validate` checks the parts. */
  const Order: seq<Part> := [Params, Query, Headers, Body, File, Files]

  function PartName(p: Part): string {
    match p
    case Params => "params"
    case Query => "query"
    case Headers => "headers"
    case Body => "body"
    case File => "file"
    case Files => "files"
  }

  function SchemaOf(schemas: Schemas, p: Part): Option<Schema> {
    match p
    case Params => schemas.params
    case Query => schemas.query
    case Headers => schemas.headers
    case Body => schemas.body
    case File => schemas.file
    case Files => schemas.files
  }

  function RawValue(req: Request, p: Part): Js.Value {
    match p
    case Params => req.params
    case Query => req.query
    case Headers => req.headers
    case Body => req.body
    case File => req.file
    case Files => req.files
  }

  /** params, query, headers and body are written back even without a schema;
      file and files only when their schema is present. */
  predicate AlwaysStored(p: Part) {
    !p.File? && !p.Files?
  }

  /** The slot of `req.validated` that part `p` is written to (`None`: key absent). */
  function Slot(v: Validated, p: Part): Option<Js.Value> {
    match p
    case Params => Some(v.params)
    case Query => Some(v.query)
    case Headers => Some(v.headers)
    case Body => Some(v.body)
    case File => v.file
    case Files => v.files
  }

  /** Writing a part's validated data touches that part's slot and no other. */
  function Store(v: Validated, p: Part, schemaPresent: bool, data: Js.Value): (r: Validated)
    ensures Slot(r, p) == if AlwaysStored(p) || schemaPresent then Some(data) else Slot(v, p)
    ensures forall q :: q != p ==> Slot(r, q) == Slot(v, q)
  {
    match p
    case Params => v.(params := data)
    case Query => v.(query := data)
    case Headers => v.(headers := data)
    case Body => v.(body := data)
    case File => if schemaPresent then v.(file := Some(data)) else v
    case Files => if schemaPresent then v.(files := Some(data)) else v
  }

  function Check(schemas: Schemas, req: Request, p: Part): PartResult {
    ValidatePart(PartName(p), SchemaOf(schemas, p), RawValue(req, p))
  }

  /** The slot of part `p` once it has passed, starting from `v`. */
  function Expected(schemas: Schemas, req: Request, v: Validated, p: Part): Option<Js.Value>
    requires Check(schemas, req, p).Ok?
  {
    if AlwaysStored(p) || SchemaOf(schemas, p).Some? then Some(Check(schemas, req, p).data) else Slot(v, p)
  }

  datatype Progress = Progress(validated: Validated, cont: Http.Cont)

  /** Check `parts` in order, writing each passing part and stopping at the first failure. */
  function RunParts(schemas: Schemas, req: Request, v: Validated, parts: seq<Part>): Progress
    decreases |parts|
  {
    if |parts| == 0 then Progress(v, Http.Next)
    else
      match Check(schemas, req, parts[0])
      case Failed(e) => Progress(v, Http.NextWith(App(e)))
      case Ok(data) => RunParts(schemas, req, Store(v, parts[0], SchemaOf(schemas, parts[0]).Some?, data), parts[1..])
  }

  /** `req.validated ??= { params, query, headers, body }`: kept when present. */
  function InitIfAbsent(req: Request): (v: Validated)
    ensures req.validated.Some? ==> v == req.validated.value
    ensures req.validated.None? ==> v == InitValidated(req).req.validated.value
  {
    req.validated.GetOr(FromRaw(req))
  }

  /** The middleware returned by `validate(schemas)`. */
  function Validate(schemas: Schemas, req: Request): (h: Handled)
    ensures h.req.(validated := req.validated) == req
    ensures h.req.validated.Some?
    ensures h.cont.Next? || h.cont.NextWith?
  {
    var r := RunParts(schemas, req, InitIfAbsent(req), Order);
    Handled(req.(validated := Some(r.validated)), r.cont)
  }

  predicate Distinct(parts: seq<Part>) {
    forall i, j :: 0 <= i < j < |parts| ==> parts[i] != parts[j]
  }

  /** A run in which every part passes: `next()` without an error, each part's
      slot holds what it was validated to, and slots of other parts are untouched. */
  lemma {:induction false} RunPartsAllPass(schemas: Schemas, req: Request, v: Validated, parts: seq<Part>)
    requires Distinct(parts)
    requires forall j :: 0 <= j < |parts| ==> Check(schemas, req, parts[j]).Ok?
    ensures RunParts(schemas, req, v, parts).cont == Http.Next
    ensures forall j :: 0 <= j < |parts| ==>
              Slot(RunParts(schemas, req, v, parts).validated, parts[j]) == Expected(schemas, req, v, parts[j])
    ensures forall q :: q !in parts ==> Slot(RunParts(schemas, req, v, parts).validated, q) == Slot(v, q)
    decreases |parts|
  {
    if |parts| > 0 {
      var p := parts[0];
      var v' := Store(v, p, SchemaOf(schemas, p).Some?, Check(schemas, req, p).data);
      assert Distinct(parts[1..]);
      RunPartsAllPass(schemas, req, v', parts[1..]);
      var r := RunParts(schemas, req, v', parts[1..]);
      assert RunParts(schemas, req, v, parts) == r;
      forall j | 0 <= j < |parts|
        ensures Slot(r.validated, parts[j]) == Expected(schemas, req, v, parts[j])
      {
        if j > 0 {
          assert parts[j] == parts[1..][j - 1];
          assert parts[j] != p;
        } else {
          assert p !in parts[1..];
        }
      }
      forall q | q !in parts
        ensures Slot(r.validated, q) == Slot(v, q)
      {
        assert q !in parts[1..];
      }
    }
  }

  /** A run whose first failure is at position `k`: `next(err)` with that
      part's error, parts before `k` written, every other slot untouched. */
  lemma {:induction false} RunPartsFirstFailure(schemas: Schemas, req: Request, v: Validated, parts: seq<Part>, k: nat)
    requires Distinct(parts)
    requires k < |parts|
    requires forall j :: 0 <= j < k ==> Check(schemas, req, parts[j]).Ok?
    requires Check(schemas, req, parts[k]).Failed?
    ensures RunParts(schemas, req, v, parts).cont == Http.NextWith(App(Check(schemas, req, parts[k]).error))
    ensures forall j :: 0 <= j < k ==>
              Slot(RunParts(schemas, req, v, parts).validated, parts[j]) == Expected(schemas, req, v, parts[j])
    ensures forall q :: q !in parts[..k] ==> Slot(RunParts(schemas, req, v, parts).validated, q) == Slot(v, q)
    decreases |parts|
  {
    var p := parts[0];
    if k > 0 {
      var v' := Store(v, p, SchemaOf(schemas, p).Some?, Check(schemas, req, p).data);
      assert Distinct(parts[1..]);
      assert parts[1..][k - 1] == parts[k];
      RunPartsFirstFailure(schemas, req, v', parts[1..], k - 1);
      var r := RunParts(schemas, req, v', parts[1..]);
      assert RunParts(schemas, req, v, parts) == r;
      forall j | 0 <= j < k
        ensures Slot(r.validated, parts[j]) == Expected(schemas, req, v, parts[j])
      {
        if j > 0 {
          assert parts[j] == parts[1..][j - 1];
          assert parts[j] != p;
        } else {
          assert p !in parts[1..][..k - 1];
        }
      }
      forall q | q !in parts[..k]
        ensures Slot(r.validated, q) == Slot(v, q)
      {
        assert parts[..k] == [p] + parts[1..][..k - 1];
      }
    }
  }

  /** The six parts appear in `Order` once each. */
  lemma OrderLists(p: Part)
    ensures Distinct(Order)
    ensures p in Order
  {
    assert Order[0] == Params && Order[1] == Query && Order[2] == Headers;
    assert Order[3] == Body && Order[4] == File && Order[5] == Files;
  }

  /** If every part passes, `next()` is called with no error and each part's
      validated data is stored (file and files only under a schema). */
  lemma ValidateAllPass(schemas: Schemas, req: Request)
    requires forall p :: Check(schemas, req, p).Ok?
    ensures Validate(schemas, req).cont == Http.Next
    ensures forall p :: Slot(Validate(schemas, req).req.validated.value, p)
                        == Expected(schemas, req, InitIfAbsent(req), p)
  {
    OrderLists(Params);
    RunPartsAllPass(schemas, req, InitIfAbsent(req), Order);
    forall p ensures p in Order {
      OrderLists(p);
    }
  }

  /** The first failing part, in `Order`, ends the request with `next(err)`:
      the earlier parts are written, that part and the later ones are not
      written (the later ones are not even checked; see `LaterSchemasIgnored`). */
  lemma ValidateStopsAtFirstFailure(schemas: Schemas, req: Request, k: nat)
    requires k < |Order|
    requires forall j :: 0 <= j < k ==> Check(schemas, req, Order[j]).Ok?
    requires Check(schemas, req, Order[k]).Failed?
    ensures Validate(schemas, req).cont == Http.NextWith(App(Check(schemas, req, Order[k]).error))
    ensures forall j :: 0 <= j < k ==>
              Slot(Validate(schemas, req).req.validated.value, Order[j]) == Expected(schemas, req, InitIfAbsent(req), Order[j])
    ensures forall j :: k <= j < |Order| ==>
              Slot(Validate(schemas, req).req.validated.value, Order[j]) == Slot(InitIfAbsent(req), Order[j])
  {
    var v0 := InitIfAbsent(req);
    OrderLists(Params);
    RunPartsFirstFailure(schemas, req, v0, Order, k);
    var r := RunParts(schemas, req, v0, Order);
    assert Validate(schemas, req) == Handled(req.(validated := Some(r.validated)), r.cont);
    forall j | k <= j < |Order|
      ensures Slot(r.validated, Order[j]) == Slot(v0, Order[j])
    {
      assert Order[j] !in Order[..k];
    }
  }

  /** Only the schemas up to the first failure are consulted: replacing any
      later schema changes nothing. */
  lemma {:induction false} RunPartsIgnoresLaterSchemas(s1: Schemas, s2: Schemas, req: Request, v: Validated, parts: seq<Part>, k: nat)
    requires k < |parts|
    requires forall j :: 0 <= j <= k ==> SchemaOf(s1, parts[j]) == SchemaOf(s2, parts[j])
    requires forall j :: 0 <= j < k ==> Check(s1, req, parts[j]).Ok?
    requires Check(s1, req, parts[k]).Failed?
    ensures RunParts(s1, req, v, parts) == RunParts(s2, req, v, parts)
    decreases |parts|
  {
    if k > 0 {
      var p := parts[0];
      var v' := Store(v, p, SchemaOf(s1, p).Some?, Check(s1, req, p).data);
      assert parts[1..][k - 1] == parts[k];
      RunPartsIgnoresLaterSchemas(s1, s2, req, v', parts[1..], k - 1);
    }
  }

  lemma LaterSchemasIgnored(s1: Schemas, s2: Schemas, req: Request, k: nat)
    requires k < |Order|
    requires forall j :: 0 <= j <= k ==> SchemaOf(s1, Order[j]) == SchemaOf(s2, Order[j])
    requires forall j :: 0 <= j < k ==> Check(s1, req, Order[j]).Ok?
    requires Check(s1, req, Order[k]).Failed?
    ensures Validate(s1, req) == Validate(s2, req)
  {
    RunPartsIgnoresLaterSchemas(s1, s2, req, InitIfAbsent(req), Order, k);
  }

  /** The defensive `??=` builds exactly what `initValidated` would have. */
  lemma DefensiveInitMatchesInitValidated(schemas: Schemas, req: Request)
    requires req.validated.None?
    ensures Validate(schemas, req) == Validate(schemas, InitValidated(req).req)
  {
  }

  /** With no schemas, `validate` after `initValidated` keeps the raw parts and calls `next()`. */
  lemma NoSchemasKeepsRawParts(req: Request)
    ensures Validate(NoSchemas, InitValidated(req).req) == InitValidated(req)
  {
    var r0 := InitValidated(req).req;
    RunPartsAllPass(NoSchemas, r0, InitIfAbsent(r0), Order);
    var v := Validate(NoSchemas, r0).req.validated.value;
    assert Slot(v, Params) == Slot(FromRaw(req), Params) by { assert Order[0] == Params; }
    assert Slot(v, Query) == Slot(FromRaw(req), Query) by { assert Order[1] == Query; }
    assert Slot(v, Headers) == Slot(FromRaw(req), Headers) by { assert Order[2] == Headers; }
    assert Slot(v, Body) == Slot(FromRaw(req), Body) by { assert Order[3] == Body; }
    assert Slot(v, File) == Slot(FromRaw(req), File) by { assert Order[4] == File; }
    assert Slot(v, Files) == Slot(FromRaw(req), Files) by { assert Order[5] == Files; }
  }

  /** End to end, as written: a failed part reaches the error handler as a
      400 naming the part, and the response carries no `details`. */
  lemma ValidationFailureResponse(schemas: Schemas, req: Request, k: nat, res: Http.Response)
    requires k < |Order|
    requires forall j :: 0 <= j < k ==> Check(schemas, req, Order[j]).Ok?
    requires Check(schemas, req, Order[k]).Failed?
    requires !res.headersSent
    ensures var h := Validate(schemas, req);
            && h.cont.NextWith?
            && var o := ErrorHandler.Handle(h.cont.err, res);
            && o.res.status == 400
            && Js.Get(o.res.body.value, "message") == Js.Str("Validation Failed for " + PartName(Order[k]))
            && !Js.HasKey(o.res.body.value, "details")
  {
    ValidateStopsAtFirstFailure(schemas, req, k);
  }
}
